=== FILE: README.md ===
# Mean Shift (flat kernel) — a Dafny model

This project models the clustering core of the `MeanShift` class in
`src/mean_shift_project/mean_shift.py`: the estimator's state, `fit` and
`predict`.

- **Shift pass.** Every candidate centroid moves to the coordinate-wise mean of the data points strictly within `bandwidth` of it. A candidate whose ball holds no point stays put.
- **Shift loop.** `fit` seeds one candidate per data point and runs at most `max_iter` passes. It stops early right after a pass whose total shift (the Frobenius norm of new minus previous candidates) is below `tol`. Running out of passes is a normal exit.
- **Pruning.** The converged candidates are walked in order. One is kept only when it is farther than `bandwidth` from every candidate kept before it.
- **Prediction.** Raises while `centroids` is `None` (before `fit`). With a non-empty centroid set, each point gets the first index among its nearest centroids, as `np.argmin` does. The empty centroid set left by fitting no data is described below.

Points are `seq<real>` and arithmetic is exact. No square root is taken: every
comparison of a norm with a threshold is made on squares.
`Geometry.DistanceComparisons` shows this gives the same answer for every
real threshold, including zero and negative ones. `Prediction.ArgminOfNorms`
shows the same for the argmin, ties included.

Modules, one file each:
- `Results`: `Option` and `Result`.
- `Geometry`: points, squared distance, and the `Within` (`< h`) and `Beyond` (`> h`) tests.
- `ShiftStep`: the shift of one candidate and the whole pass.
- `Iteration`: the bounded loop.
- `Pruning`: the greedy walk.
- `Prediction`: the nearest-centroid scan.
- `Engine`: the estimator itself (`New`, `Fit`, `FitLoop`, `Predict`).
- `Examples`: the two unit-test cases, computed exactly.
- `IntegerInput`: `fit` on an integer-typed array (see Findings).

The code validates no input, and the model keeps that behaviour:
- `fit` does not reject empty data, a non-positive bandwidth or a non-positive `max_iter`.
  - Empty data gives an empty centroid set.
  - With `bandwidth <= 0` no point is ever strictly within the ball, so no candidate moves. With a negative bandwidth every candidate is kept by pruning.
  - `max_iter <= 0` means no passes (`range` is empty), so pruning runs on a copy of the data.
  
  All of these are modelled, not excluded.
- `predict` checks only that `centroids` is not `None`. Fitting empty data leaves `centroids` as `np.array([])`, of shape `(0,)`, and `predict` then does not raise `NotFitted`:
  - With one-feature input, the subtraction at `mean_shift.py:114` broadcasts to shape `(n,1,0)`. Every norm is 0 and `np.argmin` labels every point 0.
  - With two or more features, that subtraction raises a broadcasting error.
  
  The model makes the same split on the input points' feature count: all-zero labels, or `ShapeMismatch`.

## Model

| member | source | states |
|---|---|---|
| Geometry.DistanceComparisons | src/mean_shift_project/mean_shift.py:52-55 | for a norm with square `sq` and any real `h`: `norm < h` iff `h > 0 && sq < h*h`, and `norm > h` iff `h < 0 \|\| sq > h*h`. So the model's squared tests decide exactly what the source's norm tests decide |
| ShiftStep.NeighborsExactly | src/mean_shift_project/mean_shift.py:52-55 | the selected points are exactly the data points strictly within the bandwidth of the candidate: every selected point is such a data point, and every such data point is selected |
| ShiftStep.ShiftIsFlatKernelMean | src/mean_shift_project/mean_shift.py:52-59 | the new position is the flat-kernel weighted mean over all the data, with weight 1 strictly inside the ball and 0 elsewhere. With total weight 0 the candidate is unchanged |
| ShiftStep.FarPointHasNoInfluence | src/mean_shift_project/mean_shift.py:55-59 | inserting a data point at distance `>= bandwidth` from the candidate, anywhere in the data, leaves its shift unchanged |
| ShiftStep.SeedSeesItself | src/mean_shift_project/mean_shift.py:46-59 | with a positive bandwidth, a candidate that is itself a data point has a non-empty neighbourhood, so the "no neighbours" branch never applies to it |
| ShiftStep.ShiftPass | src/mean_shift_project/mean_shift.py:49-59 | the in-place pass over the working array equals the pure map over the previous snapshot: each candidate's update reads only its own old position and the fixed data, and the length is kept |
| Iteration.Run | src/mean_shift_project/mean_shift.py:48-64 | passes `<= max_iter`. The result is exactly that many shift passes applied to the seeds. It exits through convergence iff the last pass moved the candidates by less than `tol`, and no earlier pass did. Without convergence it made all `max_iter` passes |
| Engine.New | src/mean_shift_project/mean_shift.py:31-35 | a new estimator stores the given configuration and has no centroids |
| Engine.Default | src/mean_shift_project/mean_shift.py:31-35 | the default-argument estimator has bandwidth 1.0, `max_iter` 300, `tol` 0.001 and no centroids |
| Engine.Converge | src/mean_shift_project/mean_shift.py:46-64 | the loop, seeded with a copy of the data, leaves one candidate per data point, and they equal some number `<= max_iter` of shift passes applied to the data |
| Engine.Fit | src/mean_shift_project/mean_shift.py:37-66 | `fit` keeps the configuration and sets `centroids`. The centroids are pairwise farther apart than the bandwidth, form an order-preserving subsequence of the loop's output, and number at most `n`. They are non-empty for non-empty data. With `max_iter <= 0` they are the pruned data |
| Engine.FitLoop | src/mean_shift_project/mean_shift.py:46-66 | the counted loop with `break` on convergence, followed by the pruning loop, computes `Fit` |
| Pruning.Prune | src/mean_shift_project/mean_shift.py:82-95 | the kept centroids are pairwise farther apart than the bandwidth and form an order-preserving subsequence of the input. There are at most as many as inputs. For non-empty input the first input is kept first |
| Pruning.AllBeyond | src/mean_shift_project/mean_shift.py:89-92 | the `np.all(dists > bandwidth)` scan is true iff the point is farther than the bandwidth from every kept centroid |
| Pruning.PruneLoop | src/mean_shift_project/mean_shift.py:82-95 | the loop with its explicit first-point branch computes `Prune` |
| Pruning.SubsequenceMembers | src/mean_shift_project/mean_shift.py:84-95 | every entry of a subsequence is an entry of the original, so pruning never creates or averages a point |
| Pruning.PrunePrefix | src/mean_shift_project/mean_shift.py:84-93 | what is kept from a prefix of the input is a prefix of what is kept from the whole input: earlier decisions are never revisited |
| Pruning.PruneCovers | src/mean_shift_project/mean_shift.py:84-93 | with a non-negative bandwidth, every input point is within the bandwidth (inclusive) of a centroid kept no later than the point itself. It is kept itself or close to one kept before it, and hence is covered by the final result |
| Pruning.RejectedIsCovered | src/mean_shift_project/mean_shift.py:89-93 | for any bandwidth, a point that the walk rejects lies within the bandwidth (inclusive) of a centroid kept before it |
| Pruning.PruneFixpoint | src/mean_shift_project/mean_shift.py:84-93 | pruning returns a sequence unchanged iff that sequence is already separated by more than the bandwidth |
| Pruning.PruneIdempotent | src/mean_shift_project/mean_shift.py:82-95 | pruning the pruned centroids again changes nothing |
| Prediction.NearestIndex | src/mean_shift_project/mean_shift.py:114-115 | the label is a valid centroid index at minimum distance, and every lower index is strictly farther (first-occurrence argmin) |
| Prediction.NearestIsFirstMinimum | src/mean_shift_project/mean_shift.py:115 | an index is the first minimum of the point's squared distances iff it is the scan's answer, so the label is unique |
| Prediction.ArgminOfNorms | src/mean_shift_project/mean_shift.py:114-115 | the first-minimum index over norms equals the one over their squares, ties included |
| Engine.Predict | src/mean_shift_project/mean_shift.py:111-115 | fails with `NotFitted` iff `centroids` is `None`. With a non-empty centroid set it gives one label per input point, each in `[0, \|centroids\|)` and each the first index of a nearest centroid. With the empty centroid set left by fitting no data, it labels every point 0 iff every point has at most one feature, and otherwise fails with `ShapeMismatch` |
| Examples.PredictAfterEmptyFit | src/mean_shift_project/mean_shift.py:111-115 | fitting no data leaves an empty centroid set. Predicting `[[3],[-1]]` then gives `[0, 0]`, and predicting `[[1,2]]` fails with `ShapeMismatch` |
| Engine.NearestToOwnCentroid | src/mean_shift_project/mean_shift.py:114-115 | in a centroid set separated by a non-negative bandwidth, each centroid's nearest centroid is itself |
| Engine.PredictOwnCentroids | src/mean_shift_project/mean_shift.py:111-115 | predicting a separated centroid set's own centroids labels them `0, 1, …, k-1` |
| Engine.FitThenPredictCentroids | src/mean_shift_project/mean_shift.py:66-115 | after `fit` on non-empty data with a non-negative bandwidth, predicting the centroids labels each with its own index (distance zero) |
| Examples.FitOnePass | src/mean_shift_project/mean_shift.py:48-66 | with `max_iter = 1`, `fit` prunes the result of exactly one pass, whether or not that pass met `tol` |
| Examples.FlatKernelMeanUpdate | tests/test_meanshift_basic.py:4-16 | `[[0,0],[1,1],[10,10]]` with bandwidth 2 and one pass fits exactly the centroids `[[0.5,0.5],[10,10]]` |
| Examples.OutOfBandwidthIsolation | tests/test_meanshift_basic.py:19-31 | `[[0,0],[0.5,0.5],[100,100]]` with bandwidth 1 and one pass fits exactly `[[0.25,0.25],[100,100]]`; the far point does not pull the near pair |
| IntegerInput.TruncateTowardZero | src/mean_shift_project/mean_shift.py:59 | the cast of a mean into an integer array drops the fractional part: the result lies within 1 of the value, on the zero side |
| IntegerInput.FitIntegerDtype | src/mean_shift_project/mean_shift.py:46-66 | `fit` on an integer-typed array (every coordinate a whole number) still yields separated centroids, non-empty for non-empty data |
| IntegerInput.IntegerDtypeLosesMean | src/mean_shift_project/mean_shift.py:46-59 | on the first unit-test data as integers, the fitted centroids are `[[0,0],[10,10]]`: the mean `[0.5,0.5]` is lost |

## Left out

- Floating point: the model computes on exact reals. There is no IEEE-754 rounding, NaN or infinity, and no `sqrt` (norms are compared through their squares).
- The `np.allclose` tolerances of the tests are not modelled. The unit-test cases are proved with exact equality.
- Dimension mismatches are excluded by preconditions (`Uniform` on `fit`, `Conforms` on `predict`), except for a `predict` input with no rows: `Conforms` holds of it vacuously (see `Engine.Predict` below). NumPy would raise a broadcasting error, or silently broadcast when one side has a single feature.
- Input conversion is not modelled, and neither is the failure of plain-list input, in both `fit` and `predict`.
  - `fit` converts `X` with `np.array` only for its working copy (`mean_shift.py:46`). The distance step (:52) and the mask (:55) use `X` itself.
  - For a plain list, `X[distances < self.bandwidth]` indexes a list with a boolean array. That raises `TypeError` on the first pass whenever `X` is non-empty and `max_iter >= 1`, despite the "array-like" docstring (:43).
  - `predict` indexes `X[:, np.newaxis]` (:114), which also raises for a list.
  
  The model takes sequences of points in both places, and so behaves as if the input were an array.
- Engine.Predict: an input with no rows is labelled `[]` against any fitted centroid set, because a sequence of no points carries no feature count. The source broadcasts `X[:, np.newaxis]` of shape `(0,1,f)` against the centroids at :114, and raises in two cases:
  - against the empty centroid array left by fitting no data, when `f >= 2`;
  - against a fitted `(k, d)` centroid array, when `f` is neither 1 nor `d`.
- Engine.Converge: states that the candidates equal some number of passes up to `max_iter`. The exact pass count and exit reason are stated by `Iteration.Run`.
- Mutation of the estimator object: `fit` is modelled as returning the new state value. It overwrites any earlier centroids because its result never reads them.
- Convergence of candidates to density modes: the code promises nothing about this, and the model claims nothing.
- Determinism across runs is immediate for pure functions and has no separate lemma.
- The experiment script, plotting, CSV/console output, the scikit-learn comparison test, the documentation example and the random test-data generation are not part of this model. They are I/O or a foreign library.

## Findings

| source | as written | input that shows it | evidently intended | confidence | as-written member | corrected member |
|---|---|---|---|---|---|---|
| src/mean_shift_project/mean_shift.py:46-59 | the working array `np.array(X, copy=True)` keeps the dtype of `X`, so for integer data `current_centroids[i] = np.mean(...)` truncates each mean toward zero | `X = np.array([[0,0],[1,1],[10,10]])` (integer dtype), `bandwidth=2.0`, `max_iter=1`: centroids `[[0,0],[10,10]]`, none near `[0.5,0.5]` | candidates held as floats, giving `[[0.5,0.5],[10,10]]` | medium; not executed | IntegerInput.IntegerDtypeLosesMean | Examples.FlatKernelMeanUpdate |

=== FILE: engine.dfy ===
/** The `MeanShift` estimator: its configuration, its fitted state, `fit`
    (shift loop followed by pruning) and `predict` (nearest centroid). */
module Engine {
  import opened Results
  import opened Geometry
  import opened ShiftStep
  import opened Iteration
  import opened Pruning
  import opened Prediction

  /** Configuration plus the fitted centroids, `None` until `fit` runs. */
  datatype MeanShift = MeanShift(bandwidth: real, maxIter: int, tol: real, centroids: Option<seq<Point>>)

  /** Why `predict` raised. */
  datatype PredictError =
    | NotFitted     // `predict` before any `fit`
    | ShapeMismatch // the inputs, of two or more features, cannot be broadcast
                    // against the empty centroid array left by fitting no data

  const DefaultBandwidth: real := 1.0
  const DefaultMaxIter: int := 300
  const DefaultTol: real := 0.001

  /** A fresh estimator: the configuration as given, and not fitted. */
  function New(bandwidth: real, maxIter: int, tol: real): (m: MeanShift)
    ensures m.centroids.None?
    ensures m.bandwidth == bandwidth && m.maxIter == maxIter && m.tol == tol
  {
    MeanShift(bandwidth, maxIter, tol, None)
  }

  /** `MeanShift()` with the default arguments. */
  function Default(): (r: MeanShift)
    ensures r.bandwidth == 1.0 && r.maxIter == 300 && r.tol == 0.001
    ensures r.centroids.None?
  {
    New(DefaultBandwidth, DefaultMaxIter, DefaultTol)
  }

  /** The feature count of a data set, `X.shape[1]`; zero for no rows. */
  function Dimension(xs: seq<Point>): (d: nat)
    requires Uniform(xs)
    ensures HasDim(xs, d)
  {
    if |xs| == 0 then 0 else |xs[0]|
  }

  /** The candidates the shift loop leaves: seeded with a copy of the data,
      shifted for at most `max_iter` passes. */
  function Converge(m: MeanShift, xs: seq<Point>): (r: seq<Point>)
    requires Uniform(xs)
    ensures |r| == |xs| && HasDim(r, Dimension(xs))
    ensures exists passes: nat ::
      passes <= PassBudget(m.maxIter) && r == ShiftN(xs, xs, m.bandwidth, Dimension(xs), passes)
  {
    var outcome := Run(xs, xs, m.bandwidth, m.tol, Dimension(xs), PassBudget(m.maxIter));
    outcome.centroids
  }

  /** `fit`: replaces the centroids by the pruned result of the shift loop
      and leaves the configuration alone. */
  function Fit(m: MeanShift, xs: seq<Point>): (r: MeanShift)
    requires Uniform(xs)
    ensures r.bandwidth == m.bandwidth && r.maxIter == m.maxIter && r.tol == m.tol
    ensures r.centroids.Some?
    ensures HasDim(r.centroids.value, Dimension(xs))
    ensures Separated(r.centroids.value, m.bandwidth)
    ensures IsSubsequence(r.centroids.value, Converge(m, xs))
    ensures |r.centroids.value| <= |xs|
    ensures |xs| > 0 ==> |r.centroids.value| > 0
    ensures m.maxIter <= 0 ==> r.centroids.value == Prune(xs, m.bandwidth, Dimension(xs))
  {
    m.(centroids := Some(Prune(Converge(m, xs), m.bandwidth, Dimension(xs))))
  }

  /** `fit` as the source writes it: a counted loop of in-place passes that
      breaks on convergence, then the pruning loop. It computes `Fit`. */
  method FitLoop(m: MeanShift, xs: seq<Point>) returns (r: MeanShift)
    requires Uniform(xs)
    ensures r == Fit(m, xs)
  {
    var d := Dimension(xs);
    var budget := PassBudget(m.maxIter);
    var current := xs;
    var i := 0;
    while i < budget
      invariant 0 <= i <= budget
      invariant HasDim(current, d)
      invariant Run(xs, current, m.bandwidth, m.tol, d, budget - i).centroids == Converge(m, xs)
    {
      var previous := current;
      current := ShiftPass(xs, current, m.bandwidth, d);
      if Converged(previous, current, m.tol, d) {
        break;
      }
      i := i + 1;
    }
    var unique := PruneLoop(current, m.bandwidth, d);
    r := m.(centroids := Some(unique));
  }

  /** At most one feature per point: such inputs broadcast against an empty
      centroid array, whose shape is `(0,)`. */
  predicate Narrow(xs: seq<Point>)
  {
    forall i :: 0 <= i < |xs| ==> |xs[i]| <= 1
  }

  /** `predict`: raises before `fit`; otherwise labels every point with the
      first index among its nearest centroids. After fitting no data the
      centroid array is empty: narrow inputs then get all-zero labels (every
      norm over the empty last axis is zero), wider ones fail to broadcast. */
  function Predict(m: MeanShift, xs: seq<Point>): (r: Result<seq<nat>, PredictError>)
    requires m.centroids.None? || Conforms(xs, m.centroids.value)
    ensures m.centroids.None? <==> r == Failure(NotFitted)
    ensures m.centroids.Some? && |m.centroids.value| == 0 ==>
      (Narrow(xs) <==> r == Success(seq(|xs|, i => 0))) &&
      (!Narrow(xs) <==> r == Failure(ShapeMismatch))
    ensures m.centroids.Some? && |m.centroids.value| > 0 ==>
      && r.Success?
      && |r.value| == |xs|
      && forall i :: 0 <= i < |xs| ==>
           r.value[i] < |m.centroids.value| &&
           IsFirstMinimum(SqDistances(xs[i], m.centroids.value), r.value[i])
  {
    match m.centroids
    case None => Failure(NotFitted)
    case Some(cs) =>
      if |cs| == 0 then
        if Narrow(xs) then Success(seq(|xs|, i => 0)) else Failure(ShapeMismatch)
      else
        var labels := seq(|xs|, i requires 0 <= i < |xs| => NearestIndex(xs[i], cs));
        assert forall i :: 0 <= i < |xs| ==> IsFirstMinimum(SqDistances(xs[i], cs), labels[i]) by {
          forall i | 0 <= i < |xs| {
            NearestIsFirstMinimum(xs[i], cs, labels[i]);
          }
        }
        Success(labels)
  }

  // ---------------------------------------------------------------------------
  // Properties across operations

  /** With a non-negative bandwidth, a separated centroid set sends each of
      its own centroids to that centroid's index: it is at distance zero from
      itself and farther than the bandwidth from every other centroid. */
  lemma NearestToOwnCentroid(cs: seq<Point>, h: real, d: nat, k: nat)
    requires HasDim(cs, d) && Separated(cs, h) && h >= 0.0 && k < |cs|
    ensures NearestIndex(cs[k], cs) == k
  {
    var r := NearestIndex(cs[k], cs);
    SqDistSelf(cs[k]);
    if r < k {
      assert Beyond(cs[r], cs[k], h);
      SqDistSymmetric(cs[r], cs[k]);
      assert false;
    } else if r > k {
      assert false;
    }
  }

  /** A fitted state whose centroids are separated by a non-negative
      bandwidth labels each of its own centroids with that centroid's index. */
  lemma PredictOwnCentroids(m: MeanShift, d: nat)
    requires m.centroids.Some? && |m.centroids.value| > 0
    requires HasDim(m.centroids.value, d) && Separated(m.centroids.value, m.bandwidth)
    requires m.bandwidth >= 0.0
    ensures Conforms(m.centroids.value, m.centroids.value)
    ensures Predict(m, m.centroids.value) == Success(seq(|m.centroids.value|, k => k))
  {
    var cs := m.centroids.value;
    var labels := Predict(m, cs).value;
    forall k | 0 <= k < |cs|
      ensures labels[k] == k
    {
      NearestToOwnCentroid(cs, m.bandwidth, d, k);
      NearestIsFirstMinimum(cs[k], cs, labels[k]);
    }
    assert labels == seq(|cs|, k => k);
  }

  /** After `fit` on non-empty data with a non-negative bandwidth, predicting
      the centroids themselves labels each with its own index. */
  lemma FitThenPredictCentroids(m: MeanShift, xs: seq<Point>)
    requires Uniform(xs) && |xs| > 0 && m.bandwidth >= 0.0
    ensures Conforms(Fit(m, xs).centroids.value, Fit(m, xs).centroids.value)
    ensures var cs := Fit(m, xs).centroids.value;
      Predict(Fit(m, xs), cs) == Success(seq(|cs|, k => k))
  {
    PredictOwnCentroids(Fit(m, xs), Dimension(xs));
  }
}

=== FILE: examples.dfy ===
/** The two worked cases from the repository's unit tests, computed exactly
    over the reals: one pass of `fit` in the plane. */
module Examples {
  import opened Results
  import opened Geometry
  import opened ShiftStep
  import opened Iteration
  import opened Pruning
  import opened Engine

  lemma SqDistPlane(a: Point, b: Point)
    requires |a| == 2 && |b| == 2
    ensures SqDist(a, b) == (a[0] - b[0]) * (a[0] - b[0]) + (a[1] - b[1]) * (a[1] - b[1])
  {
    assert a[..2][..1] == a[..1] && b[..2][..1] == b[..1];
    assert a[..1][..0] == [] && b[..1][..0] == [];
    assert SqDist(a[..1], b[..1]) == (a[0] - b[0]) * (a[0] - b[0]);
  }

  lemma NeighborsOfThree(x0: Point, x1: Point, x2: Point, c: Point, h: real)
    requires |x0| == |c| && |x1| == |c| && |x2| == |c|
    ensures HasDim([x0, x1, x2], |c|)
    ensures Neighbors([x0, x1, x2], c, h) ==
      (if Within(x0, c, h) then [x0] else []) +
      (if Within(x1, c, h) then [x1] else []) +
      (if Within(x2, c, h) then [x2] else [])
  {
    NeighborsSnoc([], x0, c, h);
    assert [] + [x0] == [x0];
    NeighborsSnoc([x0], x1, c, h);
    assert [x0] + [x1] == [x0, x1];
    NeighborsSnoc([x0, x1], x2, c, h);
    assert [x0, x1] + [x2] == [x0, x1, x2];
  }

  lemma NeighborsSnoc(xs: seq<Point>, x: Point, c: Point, h: real)
    requires HasDim(xs, |c|) && |x| == |c|
    ensures HasDim(xs + [x], |c|)
    ensures Neighbors(xs + [x], c, h) == Neighbors(xs, c, h) + (if Within(x, c, h) then [x] else [])
  {
    assert (xs + [x])[..|xs|] == xs;
  }

  lemma MeanOfOne(a: Point)
    ensures Mean([a], |a|) == a
  {
    assert [a][..0] == [];
    var s := Sum([a], |a|);
    assert Sum([a][..0], |a|) == Zeros(|a|);
    assert s == Add(Zeros(|a|), a);
    assert forall k :: 0 <= k < |a| ==> s[k] == a[k];
    assert s == a;
    assert 1.0 / (|[a]| as real) == 1.0;
    var r := Mean([a], |a|);
    assert forall k :: 0 <= k < |a| ==> r[k] == a[k];
  }

  lemma MeanOfPlanePair(a: Point, b: Point)
    requires |a| == 2 && |b| == 2
    ensures Mean([a, b], 2) == [(a[0] + b[0]) / 2.0, (a[1] + b[1]) / 2.0]
  {
    assert [a, b][..1] == [a];
    assert [a][..0] == [];
    var s1 := Sum([a], 2);
    assert Sum([a][..0], 2) == Zeros(2);
    assert s1 == Add(Zeros(2), a);
    assert s1[0] == a[0] && s1[1] == a[1];
    var s := Sum([a, b], 2);
    assert s == Add(s1, b);
    assert s[0] == a[0] + b[0] && s[1] == a[1] + b[1];
    var r := Mean([a, b], 2);
    assert r == Scale(1.0 / 2.0, s);
    assert r[0] == (a[0] + b[0]) / 2.0 && r[1] == (a[1] + b[1]) / 2.0;
  }

  lemma PruneOfThree(p0: Point, p1: Point, p2: Point, h: real)
    requires |p0| == |p1| == |p2|
    ensures HasDim([p0, p1, p2], |p0|)
    ensures Prune([p0, p1, p2], h, |p0|) == Consider(Consider([p0], p1, h), p2, h)
  {
    assert [p0, p1, p2][..2] == [p0, p1];
    assert [p0, p1][..1] == [p0];
    assert [p0][..0] == [];
  }

  /** A candidate repeated and then one beyond the bandwidth: the repeat is
      dropped, the far one kept. */
  lemma PruneRepeatThenFar(a: Point, b: Point, h: real)
    requires |a| == |b| && h >= 0.0 && Beyond(a, b, h)
    ensures HasDim([a, a, b], |a|)
    ensures Prune([a, a, b], h, |a|) == [a, b]
  {
    NotBeyondSelf(a, h);
    PruneOfThree(a, a, b, h);
    assert !FarFromAll(a, [a], h);
    assert FarFromAll(b, [a], h);
  }

  /** With `max_iter = 1`, `fit` prunes the candidates after exactly one
      pass, whether or not that pass met the tolerance. */
  lemma FitOnePass(m: MeanShift, xs: seq<Point>)
    requires Uniform(xs) && m.maxIter == 1
    ensures Fit(m, xs).centroids ==
      Some(Prune(ShiftAll(xs, xs, m.bandwidth, Dimension(xs)), m.bandwidth, Dimension(xs)))
  {
  }

  /** The candidates of the first unit-test case after one pass. */
  lemma FirstCaseShifts()
    ensures HasDim([[0.0, 0.0], [1.0, 1.0], [10.0, 10.0]], 2)
    ensures var xs: seq<Point> := [[0.0, 0.0], [1.0, 1.0], [10.0, 10.0]];
      && |Neighbors(xs, xs[0], 2.0)| > 0 && Shift(xs, xs[0], 2.0) == [0.5, 0.5]
      && |Neighbors(xs, xs[1], 2.0)| > 0 && Shift(xs, xs[1], 2.0) == [0.5, 0.5]
      && |Neighbors(xs, xs[2], 2.0)| > 0 && Shift(xs, xs[2], 2.0) == [10.0, 10.0]
  {
    var x0: Point, x1: Point, x2: Point := [0.0, 0.0], [1.0, 1.0], [10.0, 10.0];
    var xs := [x0, x1, x2];
    var half: Point := [0.5, 0.5];
    SqDistPlane(x0, x0); SqDistPlane(x1, x0); SqDistPlane(x2, x0);
    SqDistPlane(x0, x1); SqDistPlane(x1, x1); SqDistPlane(x2, x1);
    SqDistPlane(x0, x2); SqDistPlane(x1, x2); SqDistPlane(x2, x2);
    NeighborsOfThree(x0, x1, x2, x0, 2.0);
    NeighborsOfThree(x0, x1, x2, x1, 2.0);
    NeighborsOfThree(x0, x1, x2, x2, 2.0);
    MeanOfPlanePair(x0, x1);
    MeanOfOne(x2);
    assert Within(x0, x0, 2.0) && Within(x1, x0, 2.0) && !Within(x2, x0, 2.0);
    assert Neighbors(xs, x0, 2.0) == [x0, x1];
    assert Shift(xs, x0, 2.0) == half;
    assert Shift(xs, x1, 2.0) == half;
    assert Shift(xs, x2, 2.0) == x2;
  }

  lemma FirstCasePass()
    ensures HasDim([[0.0, 0.0], [1.0, 1.0], [10.0, 10.0]], 2)
    ensures ShiftAll([[0.0, 0.0], [1.0, 1.0], [10.0, 10.0]], [[0.0, 0.0], [1.0, 1.0], [10.0, 10.0]], 2.0, 2)
      == [[0.5, 0.5], [0.5, 0.5], [10.0, 10.0]]
  {
    FirstCaseShifts();
  }

  /** `[[0,0],[1,1],[10,10]]`, bandwidth 2, one pass: the first two
      candidates move to their mean `[0.5,0.5]`, `[10,10]` stays, and pruning
      keeps `[0.5,0.5]` and `[10,10]`. */
  lemma FlatKernelMeanUpdate()
    ensures Fit(New(2.0, 1, DefaultTol), [[0.0, 0.0], [1.0, 1.0], [10.0, 10.0]]).centroids
      == Some([[0.5, 0.5], [10.0, 10.0]])
  {
    var xs: seq<Point> := [[0.0, 0.0], [1.0, 1.0], [10.0, 10.0]];
    var m := New(2.0, 1, DefaultTol);
    var half: Point := [0.5, 0.5];
    var far: Point := [10.0, 10.0];
    assert Dimension(xs) == 2;
    calc {
      Fit(m, xs).centroids;
    ==  { FitOnePass(m, xs); }
      Some(Prune(ShiftAll(xs, xs, 2.0, 2), 2.0, 2));
    ==  { FirstCasePass(); }
      Some(Prune([half, half, far], 2.0, 2));
    ==  { SqDistPlane(half, far); PruneRepeatThenFar(half, far, 2.0); }
      Some([half, far]);
    }
  }

  /** The candidates of the second unit-test case after one pass. */
  lemma SecondCaseShifts()
    ensures HasDim([[0.0, 0.0], [0.5, 0.5], [100.0, 100.0]], 2)
    ensures var xs: seq<Point> := [[0.0, 0.0], [0.5, 0.5], [100.0, 100.0]];
      && Shift(xs, xs[0], 1.0) == [0.25, 0.25]
      && Shift(xs, xs[1], 1.0) == [0.25, 0.25]
      && Shift(xs, xs[2], 1.0) == [100.0, 100.0]
  {
    var x0: Point, x1: Point, x2: Point := [0.0, 0.0], [0.5, 0.5], [100.0, 100.0];
    var xs := [x0, x1, x2];
    var quarter: Point := [0.25, 0.25];
    SqDistPlane(x0, x0); SqDistPlane(x1, x0); SqDistPlane(x2, x0);
    SqDistPlane(x0, x1); SqDistPlane(x1, x1); SqDistPlane(x2, x1);
    SqDistPlane(x0, x2); SqDistPlane(x1, x2); SqDistPlane(x2, x2);
    NeighborsOfThree(x0, x1, x2, x0, 1.0);
    NeighborsOfThree(x0, x1, x2, x1, 1.0);
    NeighborsOfThree(x0, x1, x2, x2, 1.0);
    MeanOfPlanePair(x0, x1);
    MeanOfOne(x2);
    assert Within(x0, x0, 1.0) && Within(x1, x0, 1.0) && !Within(x2, x0, 1.0);
    assert Neighbors(xs, x0, 1.0) == [x0, x1];
    assert Shift(xs, x0, 1.0) == quarter;
    assert Shift(xs, x1, 1.0) == quarter;
    assert Shift(xs, x2, 1.0) == x2;
  }

  lemma SecondCasePass()
    ensures HasDim([[0.0, 0.0], [0.5, 0.5], [100.0, 100.0]], 2)
    ensures ShiftAll([[0.0, 0.0], [0.5, 0.5], [100.0, 100.0]], [[0.0, 0.0], [0.5, 0.5], [100.0, 100.0]], 1.0, 2)
      == [[0.25, 0.25], [0.25, 0.25], [100.0, 100.0]]
  {
    SecondCaseShifts();
  }

  /** `[[0,0],[0.5,0.5],[100,100]]`, bandwidth 1, one pass: the far point
      does not pull the near pair, which both move to `[0.25,0.25]`. */
  lemma OutOfBandwidthIsolation()
    ensures Fit(New(1.0, 1, DefaultTol), [[0.0, 0.0], [0.5, 0.5], [100.0, 100.0]]).centroids
      == Some([[0.25, 0.25], [100.0, 100.0]])
  {
    var xs: seq<Point> := [[0.0, 0.0], [0.5, 0.5], [100.0, 100.0]];
    var m := New(1.0, 1, DefaultTol);
    var quarter: Point := [0.25, 0.25];
    var far: Point := [100.0, 100.0];
    assert Dimension(xs) == 2;
    calc {
      Fit(m, xs).centroids;
    ==  { FitOnePass(m, xs); }
      Some(Prune(ShiftAll(xs, xs, 1.0, 2), 1.0, 2));
    ==  { SecondCasePass(); }
      Some(Prune([quarter, quarter, far], 1.0, 2));
    ==  { SqDistPlane(quarter, far); PruneRepeatThenFar(quarter, far, 1.0); }
      Some([quarter, far]);
    }
  }

  /** Fitting no data leaves an empty centroid array; one-feature inputs are
      then all labelled 0, two-feature inputs fail to broadcast. */
  lemma PredictAfterEmptyFit(m: MeanShift)
    ensures Fit(m, []).centroids == Some([])
    ensures Predict(Fit(m, []), [[3.0], [-1.0]]) == Success([0, 0])
    ensures Predict(Fit(m, []), [[1.0, 2.0]]) == Failure(ShapeMismatch)
  {
    var narrow: seq<Point> := [[3.0], [-1.0]];
    var wide: seq<Point> := [[1.0, 2.0]];
    assert Fit(m, []).centroids == Some([]);
    assert Narrow(narrow);
    assert seq(|narrow|, i => 0) == [0, 0];
    assert !Narrow(wide) by { assert |wide[0]| > 1; }
  }
}

=== FILE: geometry.dfy ===
/** Points, squared Euclidean distances, and the two bandwidth comparisons
    the algorithm makes (strictly inside the kernel ball, strictly beyond it).
    Distances are never square-rooted: every comparison of a norm against a
    threshold is stated on squares, and `DistanceComparisons` shows that this
    agrees with comparing the norm itself, for every real threshold. */
module Geometry {

  /** A point in feature space: one real per coordinate. */
  type Point = seq<real>

  /** Every point of `pts` has exactly `d` coordinates. */
  predicate HasDim(pts: seq<Point>, d: nat)
  {
    forall i :: 0 <= i < |pts| ==> |pts[i]| == d
  }

  /** All points of `pts` share one dimension. */
  predicate Uniform(pts: seq<Point>)
  {
    forall i, j :: 0 <= i < |pts| && 0 <= j < |pts| ==> |pts[i]| == |pts[j]|
  }

  /** Every point of `xs` has the dimension of every point of `cs`. */
  predicate Conforms(xs: seq<Point>, cs: seq<Point>)
  {
    forall i, j :: 0 <= i < |xs| && 0 <= j < |cs| ==> |xs[i]| == |cs[j]|
  }

  /** Squared Euclidean distance, summed over the coordinates. */
  function SqDist(a: Point, b: Point): (r: real)
    requires |a| == |b|
    ensures r >= 0.0
    decreases |a|
  {
    if |a| == 0 then 0.0
    else
      var k := |a| - 1;
      SqDist(a[..k], b[..k]) + (a[k] - b[k]) * (a[k] - b[k])
  }

  /** `||x - c|| < h`: the flat kernel gives `x` weight one. */
  predicate Within(x: Point, c: Point, h: real)
    requires |x| == |c|
  {
    h > 0.0 && SqDist(x, c) < h * h
  }

  /** `||a - b|| > h`: the pruning pass treats `a` and `b` as distinct. */
  predicate Beyond(a: Point, b: Point, h: real)
    requires |a| == |b|
  {
    h < 0.0 || SqDist(a, b) > h * h
  }

  lemma {:induction false} SqDistSelf(a: Point)
    ensures SqDist(a, a) == 0.0
    decreases |a|
  {
    if |a| > 0 {
      SqDistSelf(a[..|a| - 1]);
    }
  }

  lemma {:induction false} SqDistSymmetric(a: Point, b: Point)
    requires |a| == |b|
    ensures SqDist(a, b) == SqDist(b, a)
    decreases |a|
  {
    if |a| > 0 {
      var k := |a| - 1;
      SqDistSymmetric(a[..k], b[..k]);
      assert (a[k] - b[k]) * (a[k] - b[k]) == (b[k] - a[k]) * (b[k] - a[k]);
    }
  }

  /** A point is strictly inside every ball of positive radius around itself. */
  lemma WithinSelf(p: Point, h: real)
    requires h > 0.0
    ensures Within(p, p, h)
  {
    SqDistSelf(p);
    calc {
      SqDist(p, p);
    ==
      0.0;
    <
      h * h;
    }
  }

  /** A point is never more than a non-negative distance away from itself. */
  lemma NotBeyondSelf(p: Point, h: real)
    requires h >= 0.0
    ensures !Beyond(p, p, h)
  {
    SqDistSelf(p);
    calc {
      SqDist(p, p);
    ==
      0.0;
    <=
      h * h;
    }
  }

  /** For non-negative reals, comparing squares is the same as comparing the
      numbers themselves. */
  lemma SquareOrder(a: real, b: real)
    requires a >= 0.0 && b >= 0.0
    ensures a <= b <==> a * a <= b * b
  {
    if a <= b {
      var u, v := b - a, b + a;
      assert u >= 0.0 && v >= 0.0;
      assert u * v >= 0.0;
      assert b * b - a * a == u * v;
    } else {
      var u, v := a - b, a + b;
      assert u > 0.0 && v > 0.0;
      assert u * v > 0.0;
      assert a * a - b * b == u * v;
    }
  }

  /** A norm `dist` (non-negative, with square `sq`) compared against any real
      threshold `h` gives the same answers as `Within`'s and `Beyond`'s
      comparisons of `sq` against `h * h`. */
  lemma DistanceComparisons(dist: real, sq: real, h: real)
    requires dist >= 0.0 && dist * dist == sq
    ensures dist < h <==> (h > 0.0 && sq < h * h)
    ensures dist > h <==> (h < 0.0 || sq > h * h)
  {
    if h >= 0.0 {
      SquareOrder(dist, h);
      SquareOrder(h, dist);
    }
  }
}

=== FILE: integer_input.dfy ===
/** `fit` on a data set of integers, as the source computes it. The working
    array is `np.array(X, copy=True)`, which keeps the integer dtype of `X`,
    and the assignment `current_centroids[i] = np.mean(...)` casts each mean
    back to that dtype, truncating toward zero. The rest of the model works
    on exact reals, i.e. on the float arrays the algorithm is written for. */
module IntegerInput {
  import opened Results
  import opened Geometry
  import opened ShiftStep
  import opened Iteration
  import opened Pruning
  import opened Engine
  import Examples

  /** NumPy's float-to-integer cast: drop the fractional part. */
  function TruncateTowardZero(x: real): (r: int)
    ensures x >= 0.0 ==> 0 <= r && r as real <= x < r as real + 1.0
    ensures x < 0.0 ==> r <= 0 && r as real - 1.0 < x <= r as real
  {
    if x >= 0.0 then x.Floor else -((-x).Floor)
  }

  function Truncate(p: Point): (r: Point)
    ensures |r| == |p|
  {
    seq(|p|, k requires 0 <= k < |p| => TruncateTowardZero(p[k]) as real)
  }

  /** One in-place pass over an integer working array. */
  function ShiftAllIntegerDtype(xs: seq<Point>, cs: seq<Point>, h: real, d: nat): (r: seq<Point>)
    requires HasDim(xs, d) && HasDim(cs, d)
    ensures |r| == |cs| && HasDim(r, d)
  {
    seq(|cs|, i requires 0 <= i < |cs| =>
      if |Neighbors(xs, cs[i], h)| > 0 then Truncate(Shift(xs, cs[i], h)) else cs[i])
  }

  /** The shift loop over an integer working array. */
  function RunIntegerDtype(xs: seq<Point>, cs: seq<Point>, h: real, tol: real, d: nat, budget: nat): (r: seq<Point>)
    requires HasDim(xs, d) && HasDim(cs, d)
    ensures |r| == |cs| && HasDim(r, d)
    decreases budget
  {
    if budget == 0 then cs
    else
      var next := ShiftAllIntegerDtype(xs, cs, h, d);
      if Converged(cs, next, tol, d) then next
      else RunIntegerDtype(xs, next, h, tol, d, budget - 1)
  }

  /** Every coordinate of `xs` is a whole number, as in an integer array. */
  predicate IntegerValued(xs: seq<Point>)
  {
    forall i, k :: 0 <= i < |xs| && 0 <= k < |xs[i]| ==> xs[i][k] == xs[i][k].Floor as real
  }

  /** `fit` as written, when `X` is an integer array. */
  function FitIntegerDtype(m: MeanShift, xs: seq<Point>): (r: MeanShift)
    requires Uniform(xs) && IntegerValued(xs)
    ensures r.centroids.Some? && HasDim(r.centroids.value, Dimension(xs))
    ensures Separated(r.centroids.value, m.bandwidth)
    ensures |xs| > 0 ==> |r.centroids.value| > 0
  {
    var d := Dimension(xs);
    var current := RunIntegerDtype(xs, xs, m.bandwidth, m.tol, d, PassBudget(m.maxIter));
    m.(centroids := Some(Prune(current, m.bandwidth, d)))
  }

  /** The first unit-test case with integer coordinates: the mean `[0.5,0.5]`
      of the near pair is truncated to `[0,0]`, so no fitted centroid is at
      `[0.5,0.5]`, whereas on the same values as floats `FlatKernelMeanUpdate`
      finds it. */
  lemma IntegerDtypeLosesMean()
    ensures FitIntegerDtype(New(2.0, 1, DefaultTol), [[0.0, 0.0], [1.0, 1.0], [10.0, 10.0]]).centroids
      == Some([[0.0, 0.0], [10.0, 10.0]])
    ensures [0.5, 0.5] !in FitIntegerDtype(New(2.0, 1, DefaultTol), [[0.0, 0.0], [1.0, 1.0], [10.0, 10.0]]).centroids.value
  {
    var xs: seq<Point> := [[0.0, 0.0], [1.0, 1.0], [10.0, 10.0]];
    var m := New(2.0, 1, DefaultTol);
    var origin: Point := [0.0, 0.0];
    var far: Point := [10.0, 10.0];
    assert Dimension(xs) == 2;
    calc {
      FitIntegerDtype(m, xs).centroids;
    ==
      Some(Prune(RunIntegerDtype(xs, xs, 2.0, DefaultTol, 2, 1), 2.0, 2));
    ==
      Some(Prune(ShiftAllIntegerDtype(xs, xs, 2.0, 2), 2.0, 2));
    ==  { FirstCaseIntegerPass(); }
      Some(Prune([origin, origin, far], 2.0, 2));
    ==  { Examples.SqDistPlane(origin, far); Examples.PruneRepeatThenFar(origin, far, 2.0); }
      Some([origin, far]);
    }
  }

  lemma FirstCaseIntegerPass()
    ensures HasDim([[0.0, 0.0], [1.0, 1.0], [10.0, 10.0]], 2)
    ensures ShiftAllIntegerDtype([[0.0, 0.0], [1.0, 1.0], [10.0, 10.0]], [[0.0, 0.0], [1.0, 1.0], [10.0, 10.0]], 2.0, 2)
      == [[0.0, 0.0], [0.0, 0.0], [10.0, 10.0]]
  {
    var far: Point := [10.0, 10.0];
    Examples.FirstCaseShifts();
    assert Truncate([0.5, 0.5]) == [0.0, 0.0];
    assert Truncate(far) == far;
  }
}

=== FILE: iteration.dfy ===
/** The bounded shift loop: up to `max_iter` passes, stopping right after the
    first pass whose total shift (the Frobenius norm of new minus previous
    candidates) is below `tol`. Running out of passes is a normal exit. */
module Iteration {
  import opened Geometry
  import opened ShiftStep

  /** Squared Frobenius norm of `next - prev`: the squared distances each
      candidate moved, summed over all candidates. */
  function TotalSqShift(prev: seq<Point>, next: seq<Point>, d: nat): (r: real)
    requires |prev| == |next| && HasDim(prev, d) && HasDim(next, d)
    ensures r >= 0.0
  {
    if |prev| == 0 then 0.0
    else
      var k := |prev| - 1;
      TotalSqShift(prev[..k], next[..k], d) + SqDist(next[k], prev[k])
  }

  /** `||next - prev|| < tol`, stated on squares (see `DistanceComparisons`). */
  predicate Converged(prev: seq<Point>, next: seq<Point>, tol: real, d: nat)
    requires |prev| == |next| && HasDim(prev, d) && HasDim(next, d)
  {
    tol > 0.0 && TotalSqShift(prev, next, d) < tol * tol
  }

  /** Number of passes `range(max_iter)` allows: none for a non-positive cap. */
  function PassBudget(maxIter: int): (r: nat)
  {
    if maxIter > 0 then maxIter else 0
  }

  /** The candidates after exactly `n` unconditional passes. */
  function ShiftN(xs: seq<Point>, cs: seq<Point>, h: real, d: nat, n: nat): (r: seq<Point>)
    requires HasDim(xs, d) && HasDim(cs, d)
    ensures |r| == |cs| && HasDim(r, d)
    decreases n
  {
    if n == 0 then cs else ShiftN(xs, ShiftAll(xs, cs, h, d), h, d, n - 1)
  }

  /** Where the loop stopped: the candidates it left, how many passes it
      made, and whether it left through the convergence test. */
  datatype LoopOutcome = LoopOutcome(centroids: seq<Point>, passes: nat, converged: bool)

  /** The shift loop with `budget` passes left, started from candidates `cs`. */
  function Run(xs: seq<Point>, cs: seq<Point>, h: real, tol: real, d: nat, budget: nat): (r: LoopOutcome)
    requires HasDim(xs, d) && HasDim(cs, d)
    ensures r.passes <= budget
    ensures r.centroids == ShiftN(xs, cs, h, d, r.passes)
    ensures r.converged <==>
      (1 <= r.passes && Converged(ShiftN(xs, cs, h, d, r.passes - 1), r.centroids, tol, d))
    ensures !r.converged ==> r.passes == budget
    ensures forall j :: 1 <= j < r.passes ==>
      !Converged(ShiftN(xs, cs, h, d, j - 1), ShiftN(xs, cs, h, d, j), tol, d)
    decreases budget
  {
    if budget == 0 then LoopOutcome(cs, 0, false)
    else
      var next := ShiftAll(xs, cs, h, d);
      if Converged(cs, next, tol, d) then LoopOutcome(next, 1, true)
      else
        var rest := Run(xs, next, h, tol, d, budget - 1);
        LoopOutcome(rest.centroids, rest.passes + 1, rest.converged)
  }
}

=== FILE: prediction.dfy ===
/** Nearest-centroid labelling: `np.argmin` over each point's distances to
    the centroids, which returns the first index holding the minimum. */
module Prediction {
  import opened Geometry

  /** Squared distance from `p` to every centroid, in centroid order. */
  function SqDistances(p: Point, cs: seq<Point>): (r: seq<real>)
    requires HasDim(cs, |p|)
    ensures |r| == |cs|
  {
    seq(|cs|, j requires 0 <= j < |cs| => SqDist(p, cs[j]))
  }

  /** `i` is where `vals` first attains its minimum. */
  predicate IsFirstMinimum(vals: seq<real>, i: int)
  {
    && 0 <= i < |vals|
    && (forall j :: 0 <= j < |vals| ==> vals[i] <= vals[j])
    && (forall j :: 0 <= j < i ==> vals[j] > vals[i])
  }

  /** A left-to-right scan that moves to a later centroid only when it is
      strictly closer than the best seen so far. */
  function NearestIndex(p: Point, cs: seq<Point>): (r: nat)
    requires |cs| > 0 && HasDim(cs, |p|)
    ensures r < |cs|
    ensures forall j :: 0 <= j < |cs| ==> SqDist(p, cs[r]) <= SqDist(p, cs[j])
    ensures forall j :: 0 <= j < r ==> SqDist(p, cs[j]) > SqDist(p, cs[r])
    decreases |cs|
  {
    if |cs| == 1 then 0
    else
      var best := NearestIndex(p, cs[..|cs| - 1]);
      if SqDist(p, cs[|cs| - 1]) < SqDist(p, cs[best]) then |cs| - 1 else best
  }

  /** The first minimum is unique, so the scan's answer is the only index
      that is a first minimum of the squared distances. */
  lemma NearestIsFirstMinimum(p: Point, cs: seq<Point>, i: int)
    requires |cs| > 0 && HasDim(cs, |p|)
    ensures IsFirstMinimum(SqDistances(p, cs), i) <==> i == NearestIndex(p, cs)
  {
    var r := NearestIndex(p, cs);
    var vals := SqDistances(p, cs);
    assert IsFirstMinimum(vals, r);
  }

  /** The source takes `argmin` over norms, the model over squared norms.
      Squaring non-negative reals keeps their order, so both pick the same
      index, ties included. */
  lemma ArgminOfNorms(norms: seq<real>, squares: seq<real>, i: int)
    requires |norms| == |squares|
    requires forall j :: 0 <= j < |norms| ==> norms[j] >= 0.0 && norms[j] * norms[j] == squares[j]
    ensures IsFirstMinimum(norms, i) <==> IsFirstMinimum(squares, i)
  {
    if 0 <= i < |norms| {
      forall j | 0 <= j < |norms|
        ensures norms[i] <= norms[j] <==> squares[i] <= squares[j]
        ensures norms[j] > norms[i] <==> squares[j] > squares[i]
      {
        SquareOrder(norms[i], norms[j]);
        SquareOrder(norms[j], norms[i]);
      }
    }
  }
}

=== FILE: pruning.dfy ===
/** Greedy pruning of the converged candidates: walk them in order and keep a
    candidate only when it is farther than the bandwidth from every candidate
    already kept. Nothing is averaged or re-centred; earlier candidates win. */
module Pruning {
  import opened Geometry

  /** `p` is farther than `h` from every point of `kept`. */
  predicate FarFromAll(p: Point, kept: seq<Point>, h: real)
    requires HasDim(kept, |p|)
  {
    forall j :: 0 <= j < |kept| ==> Beyond(kept[j], p, h)
  }

  /** Some point of `kept` lies within distance `h` of `p` (inclusive). */
  predicate Covered(p: Point, kept: seq<Point>, h: real)
    requires HasDim(kept, |p|)
  {
    exists j :: 0 <= j < |kept| && !Beyond(kept[j], p, h)
  }

  /** Every two distinct entries of `cs` are farther apart than `h`. */
  predicate Separated(cs: seq<Point>, h: real)
    requires Uniform(cs)
  {
    forall i, j :: 0 <= i < j < |cs| ==> Beyond(cs[i], cs[j], h)
  }

  /** `a` is `b` with some entries deleted and the rest left in order. */
  predicate IsSubsequence<T(==)>(a: seq<T>, b: seq<T>)
    decreases |b|
  {
    |a| == 0 ||
    (|b| > 0 &&
      ((a[|a| - 1] == b[|b| - 1] && IsSubsequence(a[..|a| - 1], b[..|b| - 1])) ||
       IsSubsequence(a, b[..|b| - 1])))
  }

  /** One step of the walk: append `p` when it is far from everything kept. */
  function Consider(kept: seq<Point>, p: Point, h: real): (r: seq<Point>)
    requires HasDim(kept, |p|)
  {
    if FarFromAll(p, kept, h) then kept + [p] else kept
  }

  /** The centroids the walk keeps from `pts`. */
  function Prune(pts: seq<Point>, h: real, d: nat): (r: seq<Point>)
    requires HasDim(pts, d)
    ensures HasDim(r, d) && |r| <= |pts|
    ensures Separated(r, h)
    ensures IsSubsequence(r, pts)
    ensures |pts| > 0 ==> |r| > 0 && r[0] == pts[0]
    decreases |pts|
  {
    if |pts| == 0 then []
    else
      var k := |pts| - 1;
      var kept := Prune(pts[..k], h, d);
      assert IsSubsequence(kept, pts[..k]);
      assert (kept + [pts[k]])[..|kept|] == kept;
      Consider(kept, pts[k], h)
  }

  /** `np.all(dists > bandwidth)` as a scan over the kept centroids. */
  method AllBeyond(kept: seq<Point>, p: Point, h: real) returns (far: bool)
    requires HasDim(kept, |p|)
    ensures far == FarFromAll(p, kept, h)
  {
    far := true;
    var j := 0;
    while j < |kept|
      invariant 0 <= j <= |kept|
      invariant far == (forall i :: 0 <= i < j ==> Beyond(kept[i], p, h))
    {
      far := far && Beyond(kept[j], p, h);
      j := j + 1;
    }
  }

  /** The pruning loop as the source writes it, with the explicit first-point
      branch; it computes exactly `Prune`. */
  method PruneLoop(points: seq<Point>, h: real, d: nat) returns (unique: seq<Point>)
    requires HasDim(points, d)
    ensures unique == Prune(points, h, d)
  {
    unique := [];
    var i := 0;
    while i < |points|
      invariant 0 <= i <= |points|
      invariant unique == Prune(points[..i], h, d)
    {
      var point := points[i];
      assert points[..i + 1][..i] == points[..i];
      if |unique| == 0 {
        unique := unique + [point];
      } else {
        var far := AllBeyond(unique, point, h);
        if far {
          unique := unique + [point];
        }
      }
      i := i + 1;
    }
    assert points[..|points|] == points;
  }

  // ---------------------------------------------------------------------------
  // Properties of the walk

  /** Every entry of a subsequence is an entry of the original: pruning never
      creates a point. */
  lemma {:induction false} SubsequenceMembers<T>(a: seq<T>, b: seq<T>)
    requires IsSubsequence(a, b)
    ensures forall x :: x in a ==> x in b
    decreases |b|
  {
    if |a| > 0 {
      var n := |b| - 1;
      if a[|a| - 1] == b[n] && IsSubsequence(a[..|a| - 1], b[..n]) {
        SubsequenceMembers(a[..|a| - 1], b[..n]);
        assert a == a[..|a| - 1] + [b[n]];
      } else {
        SubsequenceMembers(a, b[..n]);
      }
      assert b == b[..n] + [b[n]];
    }
  }

  /** What was kept from a prefix of the input is a prefix of what is kept
      from the whole input: a decision, once made, is never revisited. */
  lemma {:induction false} PrunePrefix(pts: seq<Point>, h: real, d: nat, i: nat)
    requires HasDim(pts, d) && i <= |pts|
    ensures Prune(pts[..i], h, d) <= Prune(pts, h, d)
    decreases |pts|
  {
    if i < |pts| {
      var k := |pts| - 1;
      var kept := Prune(pts[..k], h, d);
      assert pts[..k][..i] == pts[..i];
      PrunePrefix(pts[..k], h, d, i);
      assert kept <= Prune(pts, h, d);
      PrefixTransitive(Prune(pts[..i], h, d), kept, Prune(pts, h, d));
    } else {
      assert pts[..i] == pts;
    }
  }

  lemma PrefixTransitive<T>(a: seq<T>, b: seq<T>, c: seq<T>)
    requires a <= b && b <= c
    ensures a <= c
  {
    assert c[..|b|][..|a|] == c[..|a|];
  }

  /** With a non-negative bandwidth, every input point lies within the
      bandwidth of a centroid kept no later than the point itself (a rejected
      point is close to one kept before it, a kept point is at distance zero
      from itself), and hence of some centroid of the final result. */
  lemma PruneCovers(pts: seq<Point>, h: real, d: nat)
    requires HasDim(pts, d) && h >= 0.0
    ensures forall i :: 0 <= i < |pts| ==> Covered(pts[i], Prune(pts[..i + 1], h, d), h)
    ensures forall i :: 0 <= i < |pts| ==> Covered(pts[i], Prune(pts, h, d), h)
  {
    CoveredWhenConsidered(pts, h, d);
    CoveredByResult(pts, h, d);
  }

  lemma {:induction false} CoveredByResult(pts: seq<Point>, h: real, d: nat)
    requires HasDim(pts, d) && h >= 0.0
    ensures forall i :: 0 <= i < |pts| ==> Covered(pts[i], Prune(pts, h, d), h)
    decreases |pts|
  {
    if |pts| > 0 {
      var k := |pts| - 1;
      CoveredByResult(pts[..k], h, d);
      forall i | 0 <= i < |pts|
        ensures Covered(pts[i], Prune(pts, h, d), h)
      {
        if i < k {
          assert pts[..k][i] == pts[i];
          PrunePrefix(pts, h, d, k);
          CoveredByPrefix(pts[i], Prune(pts[..k], h, d), Prune(pts, h, d), h);
        } else {
          LastCovered(pts, h, d);
        }
      }
    }
  }

  /** Each point is covered as soon as the walk has considered it: by a
      centroid kept before it, or by itself. */
  lemma CoveredWhenConsidered(pts: seq<Point>, h: real, d: nat)
    requires HasDim(pts, d) && h >= 0.0
    ensures forall i :: 0 <= i < |pts| ==> Covered(pts[i], Prune(pts[..i + 1], h, d), h)
  {
    forall i | 0 <= i < |pts|
      ensures Covered(pts[i], Prune(pts[..i + 1], h, d), h)
    {
      LastCovered(pts[..i + 1], h, d);
      assert pts[..i + 1][i] == pts[i];
    }
  }

  lemma LastCovered(pts: seq<Point>, h: real, d: nat)
    requires HasDim(pts, d) && |pts| > 0 && h >= 0.0
    ensures Covered(pts[|pts| - 1], Prune(pts, h, d), h)
  {
    var k := |pts| - 1;
    var kept := Prune(pts[..k], h, d);
    if FarFromAll(pts[k], kept, h) {
      NotBeyondSelf(pts[k], h);
      assert Prune(pts, h, d)[|kept|] == pts[k];
    } else {
      assert Prune(pts, h, d) == kept;
    }
  }

  /** A candidate the walk rejects lies within the bandwidth (inclusive) of
      a centroid kept before it; this needs no assumption on the sign of the
      bandwidth. */
  lemma RejectedIsCovered(pts: seq<Point>, h: real, d: nat)
    requires HasDim(pts, d)
    ensures forall i :: 0 <= i < |pts| && Prune(pts[..i + 1], h, d) == Prune(pts[..i], h, d) ==>
      Covered(pts[i], Prune(pts[..i], h, d), h)
  {
    forall i | 0 <= i < |pts| && Prune(pts[..i + 1], h, d) == Prune(pts[..i], h, d)
      ensures Covered(pts[i], Prune(pts[..i], h, d), h)
    {
      var kept := Prune(pts[..i], h, d);
      assert pts[..i + 1][..i] == pts[..i];
      assert pts[..i + 1][i] == pts[i];
      assert Prune(pts[..i + 1], h, d) == Consider(kept, pts[i], h);
      assert !FarFromAll(pts[i], kept, h);
    }
  }

  lemma CoveredByPrefix(p: Point, kept: seq<Point>, all: seq<Point>, h: real)
    requires HasDim(all, |p|) && kept <= all && Covered(p, kept, h)
    ensures HasDim(kept, |p|) && Covered(p, all, h)
  {
    var j :| 0 <= j < |kept| && !Beyond(kept[j], p, h);
    assert all[j] == kept[j];
  }

  /** The walk leaves a sequence alone exactly when that sequence is already
      separated. */
  lemma {:induction false} PruneFixpoint(s: seq<Point>, h: real, d: nat)
    requires HasDim(s, d)
    ensures Prune(s, h, d) == s <==> Separated(s, h)
    decreases |s|
  {
    if |s| > 0 && Separated(s, h) {
      var k := |s| - 1;
      PruneFixpoint(s[..k], h, d);
      assert Separated(s[..k], h);
      assert FarFromAll(s[k], s[..k], h);
      assert s[..k] + [s[k]] == s;
    }
  }

  /** Pruning is idempotent. */
  lemma {:induction false} PruneIdempotent(pts: seq<Point>, h: real, d: nat)
    requires HasDim(pts, d)
    ensures Prune(Prune(pts, h, d), h, d) == Prune(pts, h, d)
  {
    PruneFixpoint(Prune(pts, h, d), h, d);
  }
}

=== FILE: results.dfy ===
/** Failure-carrying datatypes used by the engine's state and its predict call. */
module Results {

  /** A value that may be absent; the engine's centroids are `None` until fitted. */
  datatype Option<+T> = None | Some(value: T)

  /** The outcome of an operation that either yields a value or raises an error. */
  datatype Result<+T, +E> = Success(value: T) | Failure(error: E)
}

=== FILE: shift.dfy ===
/** One pass of flat-kernel mean shift: every candidate centroid moves to the
    coordinate-wise mean of the data points strictly inside the bandwidth ball
    around it, and stays put when that ball holds no point. */
module ShiftStep {
  import opened Geometry

  function Zeros(d: nat): (r: Point)
    ensures |r| == d
  {
    seq(d, _ => 0.0)
  }

  function Add(a: Point, b: Point): (r: Point)
    requires |a| == |b|
    ensures |r| == |a|
  {
    seq(|a|, k requires 0 <= k < |a| => a[k] + b[k])
  }

  function Scale(s: real, a: Point): (r: Point)
    ensures |r| == |a|
  {
    seq(|a|, k requires 0 <= k < |a| => s * a[k])
  }

  /** Coordinate-wise sum of `d`-dimensional points. */
  function Sum(pts: seq<Point>, d: nat): (r: Point)
    requires HasDim(pts, d)
    ensures |r| == d
  {
    if |pts| == 0 then Zeros(d)
    else Add(Sum(pts[..|pts| - 1], d), pts[|pts| - 1])
  }

  /** Coordinate-wise arithmetic mean of a non-empty set of points. */
  function Mean(pts: seq<Point>, d: nat): (r: Point)
    requires HasDim(pts, d) && |pts| > 0
    ensures |r| == d
  {
    Scale(1.0 / (|pts| as real), Sum(pts, d))
  }

  /** The data points strictly within distance `h` of `c`, in data order. */
  function Neighbors(xs: seq<Point>, c: Point, h: real): (r: seq<Point>)
    requires HasDim(xs, |c|)
    ensures |r| <= |xs| && HasDim(r, |c|)
  {
    if |xs| == 0 then []
    else
      var k := |xs| - 1;
      Neighbors(xs[..k], c, h) + (if Within(xs[k], c, h) then [xs[k]] else [])
  }

  /** New position of candidate `c` after one shift over the data `xs`. */
  function Shift(xs: seq<Point>, c: Point, h: real): (r: Point)
    requires HasDim(xs, |c|)
    ensures |r| == |c|
  {
    var inside := Neighbors(xs, c, h);
    if |inside| > 0 then Mean(inside, |c|) else c
  }

  /** Every candidate shifted against the same data, each from its own
      previous position. */
  function ShiftAll(xs: seq<Point>, cs: seq<Point>, h: real, d: nat): (r: seq<Point>)
    requires HasDim(xs, d) && HasDim(cs, d)
    ensures |r| == |cs| && HasDim(r, d)
  {
    seq(|cs|, i requires 0 <= i < |cs| => Shift(xs, cs[i], h))
  }

  /** The pass as the source performs it: one working array updated in place,
      candidate by candidate. Because a candidate's update reads only its own
      slot (not yet overwritten) and the fixed data, the in-place pass equals
      the pure map `ShiftAll` over the previous snapshot. */
  method ShiftPass(xs: seq<Point>, cs: seq<Point>, h: real, d: nat) returns (current: seq<Point>)
    requires HasDim(xs, d) && HasDim(cs, d)
    ensures current == ShiftAll(xs, cs, h, d)
  {
    current := cs;
    var i := 0;
    while i < |current|
      invariant 0 <= i <= |cs| == |current|
      invariant forall j :: 0 <= j < i ==> current[j] == Shift(xs, cs[j], h)
      invariant forall j :: i <= j < |cs| ==> current[j] == cs[j]
    {
      var centroid := current[i];
      current := current[i := Shift(xs, centroid, h)];
      i := i + 1;
    }
  }

  // ---------------------------------------------------------------------------
  // The flat kernel as a weighting of the whole data set

  /** Flat kernel: weight one strictly inside the ball, zero elsewhere. */
  function KernelWeight(x: Point, c: Point, h: real): (r: real)
    requires |x| == |c|
  {
    if Within(x, c, h) then 1.0 else 0.0
  }

  /** Total kernel weight the data give candidate `c`. */
  function KernelMass(xs: seq<Point>, c: Point, h: real): (r: real)
    requires HasDim(xs, |c|)
  {
    if |xs| == 0 then 0.0
    else
      var k := |xs| - 1;
      KernelMass(xs[..k], c, h) + KernelWeight(xs[k], c, h)
  }

  /** Kernel-weighted sum of coordinate `k` over all the data. */
  function KernelMoment(xs: seq<Point>, c: Point, h: real, k: nat): (r: real)
    requires HasDim(xs, |c|) && k < |c|
  {
    if |xs| == 0 then 0.0
    else
      var n := |xs| - 1;
      KernelMoment(xs[..n], c, h, k) + KernelWeight(xs[n], c, h) * xs[n][k]
  }

  lemma {:induction false} NeighborsCount(xs: seq<Point>, c: Point, h: real)
    requires HasDim(xs, |c|)
    ensures |Neighbors(xs, c, h)| as real == KernelMass(xs, c, h)
    decreases |xs|
  {
    if |xs| > 0 {
      NeighborsCount(xs[..|xs| - 1], c, h);
    }
  }

  lemma {:induction false} NeighborsSum(xs: seq<Point>, c: Point, h: real, k: nat)
    requires HasDim(xs, |c|) && k < |c|
    ensures Sum(Neighbors(xs, c, h), |c|)[k] == KernelMoment(xs, c, h, k)
    decreases |xs|
  {
    if |xs| > 0 {
      var n := |xs| - 1;
      var before := Neighbors(xs[..n], c, h);
      NeighborsSum(xs[..n], c, h, k);
      if Within(xs[n], c, h) {
        var after := before + [xs[n]];
        assert after[..|after| - 1] == before;
        assert Sum(after, |c|)[k] == Sum(before, |c|)[k] + xs[n][k];
      } else {
        assert Neighbors(xs, c, h) == before;
      }
    }
  }

  /** The shift step is the flat-kernel weighted mean of the whole data set:
      with no point strictly inside the ball the candidate stays where it is,
      otherwise each coordinate is the kernel-weighted sum over all points
      divided by the total kernel weight. Points at distance `>= h` carry
      weight zero and so have no influence. */
  lemma ShiftIsFlatKernelMean(xs: seq<Point>, c: Point, h: real)
    requires HasDim(xs, |c|)
    ensures KernelMass(xs, c, h) == 0.0 ==> Shift(xs, c, h) == c
    ensures KernelMass(xs, c, h) > 0.0 ==>
      forall k :: 0 <= k < |c| ==>
        Shift(xs, c, h)[k] == KernelMoment(xs, c, h, k) / KernelMass(xs, c, h)
  {
    NeighborsCount(xs, c, h);
    if KernelMass(xs, c, h) > 0.0 {
      forall k | 0 <= k < |c|
        ensures Shift(xs, c, h)[k] == KernelMoment(xs, c, h, k) / KernelMass(xs, c, h)
      {
        ShiftCoordinate(xs, c, h, k);
      }
    }
  }

  lemma ShiftCoordinate(xs: seq<Point>, c: Point, h: real, k: nat)
    requires HasDim(xs, |c|) && k < |c| && |Neighbors(xs, c, h)| > 0
    ensures KernelMass(xs, c, h) > 0.0
    ensures Shift(xs, c, h)[k] == KernelMoment(xs, c, h, k) / KernelMass(xs, c, h)
  {
    var inside := Neighbors(xs, c, h);
    NeighborsCount(xs, c, h);
    NeighborsSum(xs, c, h, k);
    assert Shift(xs, c, h) == Mean(inside, |c|);
    MeanCoordinate(inside, |c|, k);
  }

  lemma MeanCoordinate(pts: seq<Point>, d: nat, k: nat)
    requires HasDim(pts, d) && |pts| > 0 && k < d
    ensures Mean(pts, d)[k] == Sum(pts, d)[k] / (|pts| as real)
  {
    DivideByMass(Sum(pts, d)[k], |pts| as real);
  }

  lemma DivideByMass(total: real, mass: real)
    requires mass > 0.0
    ensures (1.0 / mass) * total == total / mass
  {
  }

  /** The neighbourhood holds exactly the data points strictly inside the ball. */
  lemma {:induction false} NeighborsExactly(xs: seq<Point>, c: Point, h: real)
    requires HasDim(xs, |c|)
    ensures forall x :: x in Neighbors(xs, c, h) ==> x in xs && |x| == |c| && Within(x, c, h)
    ensures forall i :: 0 <= i < |xs| && Within(xs[i], c, h) ==> xs[i] in Neighbors(xs, c, h)
    decreases |xs|
  {
    if |xs| > 0 {
      var n := |xs| - 1;
      NeighborsExactly(xs[..n], c, h);
      forall i | 0 <= i < |xs| && Within(xs[i], c, h)
        ensures xs[i] in Neighbors(xs, c, h)
      {
        if i < n {
          assert xs[..n][i] == xs[i];
        }
      }
    }
  }

  lemma {:induction false} NeighborsConcat(a: seq<Point>, b: seq<Point>, c: Point, h: real)
    requires HasDim(a, |c|) && HasDim(b, |c|)
    ensures HasDim(a + b, |c|)
    ensures Neighbors(a + b, c, h) == Neighbors(a, c, h) + Neighbors(b, c, h)
    decreases |b|
  {
    if |b| > 0 {
      var n := |b| - 1;
      NeighborsConcat(a, b[..n], c, h);
      assert (a + b)[..|a + b| - 1] == a + b[..n];
    } else {
      assert a + b == a;
    }
  }

  /** Inserting a data point at distance `>= h` from the candidate, anywhere in
      the data, leaves the candidate's shift unchanged. */
  lemma FarPointHasNoInfluence(a: seq<Point>, b: seq<Point>, y: Point, c: Point, h: real)
    requires HasDim(a, |c|) && HasDim(b, |c|) && |y| == |c|
    requires !Within(y, c, h)
    ensures HasDim(a + [y] + b, |c|) && HasDim(a + b, |c|)
    ensures Shift(a + [y] + b, c, h) == Shift(a + b, c, h)
  {
    var ay := a + [y];
    NeighborsConcat(a, [y], c, h);
    assert [y][..0] == [];
    assert Neighbors([y], c, h) == [];
    assert Neighbors(ay, c, h) == Neighbors(a, c, h);
    NeighborsConcat(ay, b, c, h);
    NeighborsConcat(a, b, c, h);
    assert Neighbors(ay + b, c, h) == Neighbors(a + b, c, h);
  }

  /** With a positive bandwidth, a candidate that is itself a data point sees
      at least itself, so it never falls back to the "stay put" branch. */
  lemma SeedSeesItself(xs: seq<Point>, i: nat, h: real)
    requires i < |xs| && HasDim(xs, |xs[i]|) && h > 0.0
    ensures KernelMass(xs, xs[i], h) > 0.0
    ensures |Neighbors(xs, xs[i], h)| > 0
  {
    WithinSelf(xs[i], h);
    NeighborsExactly(xs, xs[i], h);
    NeighborsCount(xs, xs[i], h);
  }
}
